=== FILE: README.md ===
# Defect prediction training loop — Dafny model

This project models the parts of `TensorFlowNet` (the software-defect
classifier's training wrapper) that are plain sequential logic and do not need
the tensor framework:

- the **architecture validator** `validate_architecture`. It checks the list of
  `(TF_LAYER kind, size, name)` layer descriptors and either accepts it or raises
  the error of the first offending entry;
- the **layer-width threading** of `inference`. A Dense layer resets the
  current width to its size, a Dropout layer keeps it, and the final
  `softmax_linear` layer consumes the last width. The model also covers the
  errors raised while the layers are chained, including the weight
  initialisation for a width that is not positive;
- the **best-metric tracker**: `model_improved`, `early_stopping` and the
  best-value update of `print_step_summary_and_update_best_values`;
- the **control skeleton of `run_training`**: the step loop, the evaluation
  every 200 steps, the checkpoint request when the test loss improved, and the
  early-stopping break after the step's bookkeeping;
- the **batch counting of `do_eval`**, including Python's floor division and the
  `ZeroDivisionError` cases.

Layout, one module per component:

| file | module | models |
|---|---|---|
| `outcomes.dfy` | `Outcomes` | `Option` (Python `None`) and `Result` (value or raised error) |
| `py_value.dfy` | `PyValue` | a closed set of Python values for the tuple components (`int`, `bool`, `float`, `str`, `None` and the two `TF_LAYER` members), Python `==` on them (`1 == 1.0 == True`) and the `size += 1` probe |
| `architecture.dfy` | `Architecture` | `validate_architecture` |
| `inference.dfy` | `Inference` | the width fold and errors of `inference` |
| `best_values.dfy` | `BestValues` | best values, `model_improved`, `early_stopping`, the best-value update |
| `evaluation.dfy` | `Evaluation` | the counting in `do_eval` |
| `training.dfy` | `Training` | construction and the loop of `run_training` |

Modelling choices:

- An architecture entry is a Python tuple of arbitrary length (`seq<Value>`), so
  the arity check is part of the model. The kind, size and name components are
  dynamically typed values.
- Losses and precisions are `real`. The best losses start at `np.inf`, which is
  modelled by the `Bound` datatype.
- The session, the data sets and the optimiser are replaced by what they deliver
  at each step (`Training.Observations`). For the session calls this is a
  `StepResult`. When a call raises, the source catches the exception and the
  losses not yet assigned keep their initial `-1`.
- A checkpoint is modelled as the step at which it was requested. A failing save
  is caught and logged in the source, so a request is the same as an attempt.

Points where the code's behaviour may surprise:

- The validator does not check that sizes are positive integers, and it does not
  check that a Dropout value is a probability. It only probes `size += 1`, so
  any int, bool or float passes. A zero or negative Dense size, or a
  non-positive `input_shape`, is rejected only later, when `inference`
  initialises a weight matrix for that width (`std_dev / math.sqrt(float(dim_x))`
  at line 27). That raises `ZeroDivisionError` for 0 and `ValueError` for a
  negative width.
- A zero `batch_size` is accepted by the constructor. `run_training` then
  raises `ZeroDivisionError` when it builds the training op (line 227), before
  the first step, even when `max_steps` is 0.
- Patience is counted in steps since the last improving evaluation step, not in
  evaluation windows.
- A failed session step reports a test loss of `-1`. At an evaluation step this
  counts as an improvement, requests a checkpoint and becomes the best test
  loss (`Training.FailedStepRegistersImprovement`). This assumes that the
  uncaught session calls of that evaluation step succeed: `do_eval` (line 264)
  and the summary runs (lines 379-380). If the step failed because of its feed
  dict, those calls most likely fail as well. The exception then ends
  `run_training` before lines 388-395 are reached.
- The best values are fields of the object and are never reset. A second
  `run_training` call therefore continues from the previous best values, so
  `RunTraining` takes the net's tracker as its starting state.

## Model

| member | source | states |
|---|---|---|
| `PyValue.AddOne` | Defect_Prediction/Defect_Prediction/prediction/tf_model.py:146-150 | `size += 1` succeeds exactly for numbers (int, bool, float) and then yields the numeric value plus one; for strings, enumeration members and `None` it raises |
| `Architecture.CheckFrom` | Defect_Prediction/Defect_Prediction/prediction/tf_model.py:133-157 | the validation loop from entry `i`, with the list of names seen so far, accepts iff no remaining entry offends. Otherwise it is `Rejected` with the error of the first offending entry, in list order |
| `Architecture.Validate` | Defect_Prediction/Defect_Prediction/prediction/tf_model.py:127-157 | `None` raises "Architecture is None", an empty list raises "no layer". Otherwise the result is `Accepted` iff the architecture is well formed: every entry is a triple, the kind is Dense or Dropout, the size is numeric, the name is not `''`, and names are pairwise distinct under Python `==`. A rejection carries the error of the first offending entry |
| `Architecture.WellFormedIffNoError` | Defect_Prediction/Defect_Prediction/prediction/tf_model.py:135-157 | the per-entry checks against the names already seen accept every entry exactly when the declarative well-formedness condition holds, including pairwise distinct names |
| `Architecture.FirstOffenceUnique` | Defect_Prediction/Defect_Prediction/prediction/tf_model.py:135-157 | there is only one first offending entry, so the raised error is determined by the list |
| `Architecture.ErrorUnaffectedBySuffix` | Defect_Prediction/Defect_Prediction/prediction/tf_model.py:135-157 | if entry `i` is the first offending entry of a list, appending further entries still raises that entry's error, because the check stops at the first offence |
| `Inference.WidthError` | Defect_Prediction/Defect_Prediction/prediction/tf_model.py:25-29 | initialising weights for an input width `dim_x` (`std_dev / math.sqrt(float(dim_x))`) raises exactly when the width is not a positive number: `ZeroDivisionError` for 0, `ValueError` for a negative width, and a non-numeric width is counted as an error |
| `Inference.LastDenseSizeIsLastDense` | Defect_Prediction/Defect_Prediction/prediction/tf_model.py:87-91 | the reference width is `input_shape` when there is no Dense entry, and otherwise the size of a Dense entry after which no Dense entry follows |
| `Inference.Thread` | Defect_Prediction/Defect_Prediction/prediction/tf_model.py:25-96 | the layer loop fails iff some entry raises. The possible errors are: an entry that is not a triple; a Dense layer whose input width (`predecessor_shape`) is 0, negative or not a number, which fails the weight initialisation; a Dropout layer without a keep-probability placeholder; an unknown kind as the first entry (unbound `layer_tensor`). The error is the first such entry's. On success the threaded width is the size of the last Dense layer, or `input_shape` |
| `Inference.Infer` | Defect_Prediction/Defect_Prediction/prediction/tf_model.py:25-104 | building the model fails iff some entry raises (first error in list order), or else the final layer's input width is not a positive number (0 raises `ZeroDivisionError`, a negative width `ValueError`). On success the final linear layer maps that positive width (the size of the last Dense layer, or `input_shape`) to `output_shape` outputs |
| `Inference.InferValidArchitecture` | Defect_Prediction/Defect_Prediction/prediction/tf_model.py:25-104 | on a validated architecture, building raises iff a Dropout layer is present and `keep_prob_pl` is `None`, or `input_shape` or some Dense size is not positive. Only the missing-dropout, zero-width and negative-width errors occur. With positive widths the error is the missing-dropout one, and with a placeholder it is a width error. Without Dense layers the final layer reads `input_shape`. Otherwise it reads the size of a Dense layer followed only by Dropout layers |
| `Inference.DropoutKeepsWidth` | Defect_Prediction/Defect_Prediction/prediction/tf_model.py:92-96 | appending a Dropout layer to any architecture leaves the build result unchanged: a buildable model keeps its final input width, and a failing one raises the same error |
| `Inference.DenseSetsWidth` | Defect_Prediction/Defect_Prediction/prediction/tf_model.py:25-100 | appending a Dense layer to a buildable model makes its size the final layer's input width when that size is positive. Otherwise the final layer raises that width's error |
| `Inference.BadWidthReadIffNonPositive` | Defect_Prediction/Defect_Prediction/prediction/tf_model.py:25-100 | some Dense layer or the final layer reads a width that is not a positive number iff `input_shape` or some Dense size is not one. Each Dense size is read by the next Dense layer or by the final layer |
| `BestValues.ModelImproved` | Defect_Prediction/Defect_Prediction/prediction/tf_model.py:405-406 | the test loss improves iff the best test loss is not already at most it. An improving loss is at most the best and differs from it |
| `BestValues.EarlyStopping` | Defect_Prediction/Defect_Prediction/prediction/tf_model.py:409-415 | training stops iff the best test loss is at most the current one (no improvement) and more than `early_stopping_steps` steps have passed since the last improvement. Stopping needs a finite best test loss |
| `BestValues.Update` | Defect_Prediction/Defect_Prediction/prediction/tf_model.py:441-456 | each best loss becomes the smaller of itself and the new loss and each best precision the larger, replaced only on a strict improvement. The best test loss changes exactly when `model_improved` holds, and `last_test_loss_improvement` becomes the step exactly then and is unchanged otherwise |
| `BestValues.UpdateIdempotent` | Defect_Prediction/Defect_Prediction/prediction/tf_model.py:441-456 | after an update the same test loss is no longer an improvement, and repeating the update changes nothing |
| `Evaluation.FloorDiv` | Defect_Prediction/Defect_Prediction/prediction/tf_model.py:260 | Python `//` rounds towards minus infinity: the quotient `q` satisfies `b*q <= a < b*q + b` for positive `b` and the mirrored bounds for negative `b` |
| `Evaluation.DoEval` | Defect_Prediction/Defect_Prediction/prediction/tf_model.py:256-266 | `do_eval` raises `ZeroDivisionError` iff the batch size is 0 or `(n // batch_size) * batch_size` is 0. Otherwise it reports `(n // batch_size) * batch_size` examples and the sum of the per-batch correct counts of exactly `n // batch_size` batches, with `precision * num_examples == true_count` |
| `Evaluation.BatchArithmetic` | Defect_Prediction/Defect_Prediction/prediction/tf_model.py:260-265 | for a positive batch size the evaluated example count is a multiple of `batch_size`, at most `n`, drops fewer than `batch_size` examples, and the evaluation fails exactly when `n < batch_size` |
| `Evaluation.CorrectTotalBounded` | Defect_Prediction/Defect_Prediction/prediction/tf_model.py:262-264 | if no batch reports more correct predictions than `batch_size`, the total over `k` batches is at most `k * batch_size` |
| `Evaluation.PrecisionIsFraction` | Defect_Prediction/Defect_Prediction/prediction/tf_model.py:259-265 | with per-batch counts bounded by the batch size, the reported precision lies in `[0, 1]` |
| `Training.Construct` | Defect_Prediction/Defect_Prediction/prediction/tf_model.py:178-211 | construction succeeds iff the architecture is well formed. A rejection raises exactly the validator's error (the first offending entry's), before anything else. A constructed net stores the given configuration and architecture and starts from `inf` best losses, zero best precisions and last improvement 0. With the keep-probability placeholder `run_training` passes, its model builds iff `input_shape` and every Dense size are positive, and otherwise raises a zero- or negative-width error |
| `Training.Truncate` | Defect_Prediction/Defect_Prediction/prediction/tf_model.py:228 | Python's `int()` on a float truncates towards zero: for a non-negative `x` the result is the largest integer at most `x`, and for a negative `x` the smallest integer at least `x` |
| `Training.DecaySteps` | Defect_Prediction/Defect_Prediction/prediction/tf_model.py:227-228 | `num_examples / batch_size` is a true division that raises `ZeroDivisionError` exactly for a zero batch size. Otherwise `decay_steps` is the batches per epoch times `num_epochs_per_decay`, truncated towards zero by `int()` |
| `Training.RunTraining` | Defect_Prediction/Defect_Prediction/prediction/tf_model.py:224-400 | the run fails iff model building raises (which includes a non-positive `input_shape` or Dense size), or `batch_size` is 0, or (for a positive `max_steps`) `do_eval` raises. A zero batch size raises `ZeroDivisionError` in `get_train_op` (line 227, called at line 310) before the loop, whatever `max_steps` is; a build error comes first. When the model builds and the batch size is not 0, the only possible failure is `do_eval`'s `ZeroDivisionError`. Otherwise: at most `max_steps` steps run; the loop breaks right after the first step whose pre-update early-stopping decision holds, or runs all steps; the final best values include that step's bookkeeping; checkpoints are requested exactly at the steps `s % 200 == 0` whose test loss is below the best before that step's update, in increasing order |
| `Training.BestValuesMonotone` | Defect_Prediction/Defect_Prediction/prediction/tf_model.py:441-456 | over the whole run the best losses never increase and the best precisions never decrease |
| `Training.NoChangeBetweenEvaluations` | Defect_Prediction/Defect_Prediction/prediction/tf_model.py:368-395 | the best values change only at evaluation steps: across a stretch with no step divisible by 200 they stay the same |
| `Training.LatestImprovement` | Defect_Prediction/Defect_Prediction/prediction/tf_model.py:387-395 | in a fresh run, after at least one step, `last_test_loss_improvement` is the latest step that requested a checkpoint, the best test loss is that step's test loss, and it is the smallest test loss of all evaluation steps so far |
| `Training.EarlyStopWindow` | Defect_Prediction/Defect_Prediction/prediction/tf_model.py:409-415 | in a fresh run, early stopping at step `s` implies `s > early_stopping_steps`, that no checkpoint was requested in the last `early_stopping_steps` steps, and that an earlier evaluation had a test loss no worse than step `s`'s |
| `Training.FailedStepRegistersImprovement` | Defect_Prediction/Defect_Prediction/prediction/tf_model.py:351-365 | a step whose session call raised reports test loss `-1`. At an evaluation step with a best above `-1`, it requests a checkpoint and becomes the best test loss and the last improvement. After it, no step with a test loss of at least `-1` can request a checkpoint |
| `Training.DefaultArchitectureBuilds` | Defect_Prediction/Defect_Prediction/prediction/tf_model.py:171 | the constructor's default architecture (Dense 1024, Dense 64, Dropout 0.6) is accepted. Its final layer reads 64 inputs when `input_shape` is positive. For `input_shape` 0 the first Dense layer raises the zero-width error, and for a negative one the negative-width error |
| `Training.DuplicateNamesRejected` | Defect_Prediction/Defect_Prediction/prediction/tf_model.py:155-157 | two layers named `'h1'` are rejected with the duplicate-name error, as are names `1` and `True`, which Python considers equal |

## Left out

- Tensor-framework work: graph construction, variables and their initialisation, matmul/ReLU/dropout ops, the cross-entropy `loss`, the `in_top_k` counter of `evaluate`, and placeholders. These are foreign calls with float numerics.
- The learning-rate decay and the optimiser of `get_train_op` (lines 229-247). These are framework calls; only `decay_steps` and its division (lines 227-228) are modelled, in exact arithmetic (see `Training.DecaySteps` below).
- `predict` (lines 418-427). It is a softmax and argmax over floats.
- The NaN divergence assertion (line 362). Reals have no NaN, and a NaN test loss is not modelled either.
- `save_model`, `load_model` and the Saver's file I/O (lines 474-484). Only the request of a checkpoint at a step is modelled.
- Summary writers, logging, console tables and colours, wall-clock durations, and log-directory creation.
- `fill_feed_dict` and the data sets' `next_batch` (lines 44-52). These are external collaborators; their effect is the abstract per-step and per-batch inputs.
- `add_loss_summaries`, `add_summaries` and `activation_summary`. They only write summaries.
- An architecture entry that has no length (where `len(layer)` raises `TypeError`), and `inference` called on `None`. Only tuples and lists are modelled.
- Training.RunTraining: assumes that the framework calls before the loop (placeholders, `loss`, the optimiser, session set-up) and the session calls outside the `try` block never raise. The session calls outside the `try` block are `sess.run` in `do_eval` (line 264) and the two summary runs (lines 379-380); an exception there would end the run uncaught. The precisions are inputs and are not tied to the `Evaluation.DoEval` model; only the failure of `do_eval` is taken from it. The outcome of the caught session exceptions is modelled, but not their logging.
- PyValue.AddOne: decides `size += 1` only on the modelled closed set of values. Other numeric Python types that also pass the probe, such as numpy scalars, `complex`, `Fraction` and `Decimal`, are not modelled.
- Training.DecaySteps: the value is stated in exact real arithmetic. The source computes `num_examples / batch_size * num_epochs_per_decay` in IEEE doubles before `int()` truncates, so rounding can make `decay_steps` one lower (for 7 examples, batch size 5 and 350 epochs per decay, the double product is just below 490 and gives 489). Only the `ZeroDivisionError` is used elsewhere in the model.
- Inference.WidthError: every non-numeric width counts as an error. The real outcome depends on what `float()` and the tensor framework accept; for example, `float('12')` succeeds.
- Inference.InferValidArchitecture: errors raised by the tensor framework itself are assumed not to occur. Examples are a float size used as a weight or bias shape (lines 27 and 32), which the validator accepts, and a name that `tf.variable_scope` rejects (lines 56 and 66), such as the integer `1`. So "builds iff" holds only under that assumption; an architecture like `[(Dense, 64.5, 'h1')]` is modelled as building.
- Training.Construct: its "model builds iff `input_shape` and every Dense size are positive" rests on the same assumption about errors raised by the framework (float shapes, invalid scope names).

=== FILE: architecture.dfy ===
/**
 * The architecture validator `validate_architecture`: a pure check over the
 * list of `(kind, size, name)` layer descriptors that either accepts or raises
 * the error of the first offending entry.
 */
module Architecture {
  import opened Outcomes
  import opened PyValue

  /** The distinct `AttributeError`s the validator raises, in the order it checks them. */
  datatype ArchError =
    | ArchitectureIsNone
    | NoLayer
    | InvalidEntry
    | InvalidLayerType
    | InvalidSize
    | MissingName
    | DuplicateName

  /** The outcome of the validator: it returns normally or raises. */
  datatype Verdict = Accepted | Rejected(error: ArchError)

  /** One architecture entry: a Python tuple of any length. */
  type Entry = seq<Value>

  /** The name component of a well-sized entry. */
  function NameOf(e: Entry): Value {
    if |e| == 3 then e[2] else NoneValue
  }

  /** The names of a list of entries, in order. */
  function Names(es: seq<Entry>): (names: seq<Value>)
    ensures |names| == |es|
    ensures forall k :: 0 <= k < |es| ==> names[k] == NameOf(es[k])
  {
    seq(|es|, k requires 0 <= k < |es| => NameOf(es[k]))
  }

  /**
   * The checks of one loop iteration, in source order: the arity, the kind,
   * the `size += 1` probe, the empty name, and the name already seen.
   */
  function EntryError(e: Entry, seen: seq<Value>): Option<ArchError> {
    if |e| != 3 then Some(InvalidEntry)
    else if !Equal(e[0], Kind(Dense)) && !Equal(e[0], Kind(Dropout)) then Some(InvalidLayerType)
    else if AddOne(e[1]).None? then Some(InvalidSize)
    else if Equal(e[2], Str("")) then Some(MissingName)
    else if Contains(seen, e[2]) then Some(DuplicateName)
    else None
  }

  /** The error entry `i` raises when the loop reaches it, given the names before it. */
  function ErrorAt(arch: seq<Entry>, i: int): Option<ArchError>
    requires 0 <= i < |arch|
  {
    EntryError(arch[i], Names(arch[..i]))
  }

  /** `i` is the first offending entry and `err` is what it raises. */
  predicate FirstOffence(arch: seq<Entry>, i: int, err: ArchError) {
    && 0 <= i < |arch|
    && ErrorAt(arch, i) == Some(err)
    && forall j :: 0 <= j < i ==> ErrorAt(arch, j).None?
  }

  /** A single entry is well formed: a triple of a layer kind, a number and a non-empty name. */
  predicate LayerOk(e: Entry) {
    |e| == 3 && e[0].Kind? && IsNumber(e[1]) && e[2] != Str("")
  }

  /**
   * The declarative acceptance condition: at least one layer, every entry well
   * formed, names pairwise distinct under Python `==`. Sizes need not be positive.
   */
  predicate WellFormed(arch: seq<Entry>) {
    && |arch| > 0
    && (forall i :: 0 <= i < |arch| ==> LayerOk(arch[i]))
    && (forall i, j :: 0 <= i < j < |arch| ==> !Equal(NameOf(arch[i]), NameOf(arch[j])))
  }

  /** The loop over the entries from `i` on, `names` holding the names appended so far. */
  function CheckFrom(arch: seq<Entry>, i: nat, names: seq<Value>): (r: Verdict)
    requires i <= |arch| && names == Names(arch[..i])
    ensures r.Accepted? <==> forall j :: i <= j < |arch| ==> ErrorAt(arch, j).None?
    ensures r.Rejected? ==>
              exists j :: i <= j < |arch| && ErrorAt(arch, j) == Some(r.error)
                          && forall k :: i <= k < j ==> ErrorAt(arch, k).None?
    decreases |arch| - i
  {
    if i == |arch| then Accepted
    else
      var e := EntryError(arch[i], names);
      assert ErrorAt(arch, i) == e;
      if e.Some? then Rejected(e.value)
      else
        assert Names(arch[..i + 1]) == names + [NameOf(arch[i])];
        CheckFrom(arch, i + 1, names + [NameOf(arch[i])])
  }

  /** `validate_architecture`, with `None` for the Python `None` argument. */
  function Validate(arch: Option<seq<Entry>>): (r: Verdict)
    ensures arch.None? ==> r == Rejected(ArchitectureIsNone)
    ensures arch.Some? && |arch.value| == 0 ==> r == Rejected(NoLayer)
    ensures r.Accepted? <==> arch.Some? && WellFormed(arch.value)
    ensures r.Rejected? && arch.Some? && |arch.value| > 0 ==> exists i :: FirstOffence(arch.value, i, r.error)
  {
    match arch
    case None => Rejected(ArchitectureIsNone)
    case Some(entries) =>
      if |entries| == 0 then Rejected(NoLayer)
      else
        assert entries[..0] == [];
        var r := CheckFrom(entries, 0, []);
        WellFormedIffNoError(entries);
        CheckFromFindsFirstOffence(entries, r);
        r
  }

  /** The error of the whole loop is the error of its first offending entry. */
  lemma CheckFromFindsFirstOffence(arch: seq<Entry>, r: Verdict)
    requires arch[..0] == [] && r == CheckFrom(arch, 0, [])
    ensures r.Rejected? ==> exists i :: FirstOffence(arch, i, r.error)
  {
    if r.Rejected? {
      var j :| 0 <= j < |arch| && ErrorAt(arch, j) == Some(r.error) && forall k :: 0 <= k < j ==> ErrorAt(arch, k).None?;
      assert FirstOffence(arch, j, r.error);
    }
  }

  /** The per-entry checks of the loop accept exactly the well-formed architectures. */
  lemma WellFormedIffNoError(arch: seq<Entry>)
    requires |arch| > 0
    ensures WellFormed(arch) <==> forall j :: 0 <= j < |arch| ==> ErrorAt(arch, j).None?
  {
    if WellFormed(arch) {
      forall j | 0 <= j < |arch|
        ensures ErrorAt(arch, j).None?
      {
        var seen := Names(arch[..j]);
        assert LayerOk(arch[j]);
        match arch[j][0].kind {
          case Dense => assert Equal(arch[j][0], Kind(Dense));
          case Dropout => assert Equal(arch[j][0], Kind(Dropout));
        }
        forall k | 0 <= k < |seen|
          ensures !Equal(seen[k], arch[j][2])
        {
          assert seen[k] == NameOf(arch[k]) && arch[j][2] == NameOf(arch[j]);
        }
        assert Equal(arch[j][0], Kind(Dense)) || Equal(arch[j][0], Kind(Dropout));
        assert AddOne(arch[j][1]).Some?;
        assert !Equal(arch[j][2], Str(""));
        assert !Contains(seen, arch[j][2]);
      }
    }
    if forall j :: 0 <= j < |arch| ==> ErrorAt(arch, j).None? {
      forall i | 0 <= i < |arch|
        ensures LayerOk(arch[i])
      {
        assert ErrorAt(arch, i).None?;
      }
      forall i, j | 0 <= i < j < |arch|
        ensures !Equal(NameOf(arch[i]), NameOf(arch[j]))
      {
        assert ErrorAt(arch, j).None?;
        var seen := Names(arch[..j]);
        assert seen[i] == NameOf(arch[i]);
        assert !Contains(seen, arch[j][2]);
      }
    }
  }

  /** The first offending entry is unique, so the error raised is determined by it. */
  lemma FirstOffenceUnique(arch: seq<Entry>, i: int, e1: ArchError, j: int, e2: ArchError)
    requires FirstOffence(arch, i, e1) && FirstOffence(arch, j, e2)
    ensures i == j && e1 == e2
  {
  }

  /**
   * Entries after the first offending one cannot change the outcome: the check
   * stops at the first error in list order.
   */
  lemma ErrorUnaffectedBySuffix(arch: seq<Entry>, rest: seq<Entry>, i: int, err: ArchError)
    requires FirstOffence(arch, i, err)
    ensures Validate(Some(arch + rest)) == Rejected(err)
  {
    var whole := arch + rest;
    forall j | 0 <= j <= i
      ensures ErrorAt(whole, j) == ErrorAt(arch, j)
    {
      assert whole[..j] == arch[..j];
    }
    assert FirstOffence(whole, i, err);
    assert !WellFormed(whole) by {
      WellFormedIffNoError(whole);
    }
    var err' := Validate(Some(whole)).error;
    var i' :| FirstOffence(whole, i', err');
    FirstOffenceUnique(whole, i, err, i', err');
  }
}

=== FILE: best_values.dfy ===
/**
 * The best-metric bookkeeping of `TensorFlowNet`: the best train and test
 * losses and precisions seen so far and the step of the last test-loss
 * improvement, with the predicates `model_improved` and `early_stopping` and
 * the update done by `print_step_summary_and_update_best_values`.
 */
module BestValues {

  /** A loss bound: `np.inf` before the first evaluation, a real afterwards. */
  datatype Bound = Infinity | Finite(value: real)

  /** `x < b` */
  predicate Below(x: real, b: Bound) {
    b.Infinity? || x < b.value
  }

  /** `a <= b` */
  predicate AtMost(a: Bound, b: Bound) {
    b.Infinity? || (a.Finite? && a.value <= b.value)
  }

  /** The fields `best_train_loss`, `best_train_precission`, `best_test_loss`,
      `best_test_precission` and `last_test_loss_improvement`. */
  datatype Tracker = Tracker(
    bestTrainLoss: Bound,
    bestTrainPrecision: real,
    bestTestLoss: Bound,
    bestTestPrecision: real,
    lastImprovement: int)

  /** The values the constructor sets. */
  const Initial: Tracker := Tracker(Infinity, 0.0, Infinity, 0.0, 0)

  /**
   * `model_improved`: the test loss is strictly below the best one, that is,
   * the best is not already at most the new loss.
   */
  function ModelImproved(t: Tracker, testLoss: real): (improved: bool)
    ensures improved <==> !AtMost(t.bestTestLoss, Finite(testLoss))
    ensures improved ==> AtMost(Finite(testLoss), t.bestTestLoss) && t.bestTestLoss != Finite(testLoss)
  {
    Below(testLoss, t.bestTestLoss)
  }

  /**
   * `early_stopping(step, test_loss)`: the test loss did not improve and more
   * than `patience` (`early_stopping_steps`) steps passed since the last
   * improvement.
   */
  function EarlyStopping(t: Tracker, step: int, testLoss: real, patience: int): (stop: bool)
    ensures stop <==> AtMost(t.bestTestLoss, Finite(testLoss)) && t.lastImprovement + patience < step
    ensures stop ==> t.bestTestLoss.Finite?
  {
    !ModelImproved(t, testLoss) && step - t.lastImprovement > patience
  }

  /** The metrics of one evaluation point, passed to the best-value update. */
  datatype Metrics = Metrics(
    step: int,
    trainLoss: real,
    trainPrecision: real,
    testLoss: real,
    testPrecision: real)

  function Min(b: Bound, x: real): Bound {
    if Below(x, b) then Finite(x) else b
  }

  function Max(a: real, b: real): real {
    if b > a then b else a
  }

  /**
   * The best-value update. Each best becomes the better of itself and the new
   * value, replaced only on a strict improvement; the last-improvement step
   * moves to `step` exactly when the test loss improves.
   */
  function Update(t: Tracker, ev: Metrics): (r: Tracker)
    ensures AtMost(r.bestTrainLoss, t.bestTrainLoss) && AtMost(r.bestTrainLoss, Finite(ev.trainLoss))
    ensures r.bestTrainLoss == t.bestTrainLoss || r.bestTrainLoss == Finite(ev.trainLoss)
    ensures AtMost(r.bestTestLoss, t.bestTestLoss) && AtMost(r.bestTestLoss, Finite(ev.testLoss))
    ensures r.bestTestLoss == t.bestTestLoss || r.bestTestLoss == Finite(ev.testLoss)
    ensures r.bestTestLoss != t.bestTestLoss <==> ModelImproved(t, ev.testLoss)
    ensures r.bestTrainPrecision >= t.bestTrainPrecision && r.bestTrainPrecision >= ev.trainPrecision
    ensures r.bestTrainPrecision == t.bestTrainPrecision || r.bestTrainPrecision == ev.trainPrecision
    ensures r.bestTestPrecision >= t.bestTestPrecision && r.bestTestPrecision >= ev.testPrecision
    ensures r.bestTestPrecision == t.bestTestPrecision || r.bestTestPrecision == ev.testPrecision
    ensures ModelImproved(t, ev.testLoss) ==> r.lastImprovement == ev.step
    ensures !ModelImproved(t, ev.testLoss) ==> r.lastImprovement == t.lastImprovement
  {
    Tracker(
      Min(t.bestTrainLoss, ev.trainLoss),
      Max(t.bestTrainPrecision, ev.trainPrecision),
      Min(t.bestTestLoss, ev.testLoss),
      Max(t.bestTestPrecision, ev.testPrecision),
      if ModelImproved(t, ev.testLoss) then ev.step else t.lastImprovement)
  }

  /** After an update nothing improves on the value just recorded: the update is idempotent. */
  lemma UpdateIdempotent(t: Tracker, ev: Metrics)
    ensures !ModelImproved(Update(t, ev), ev.testLoss)
    ensures Update(Update(t, ev), ev) == Update(t, ev)
  {
  }
}

=== FILE: evaluation.dfy ===
/**
 * The counting in `do_eval`: a full pass over a data set in batches of
 * `batch_size`, with the number of batches and of examples computed by
 * Python floor division, so that a partial final batch is dropped. The
 * per-batch correct counts come from the session and are an input here.
 */
module Evaluation {
  import opened Outcomes

  /** Python's `a // b`: the quotient rounded towards minus infinity. */
  function FloorDiv(a: int, b: int): (q: int)
    requires b != 0
    ensures b > 0 ==> b * q <= a < b * q + b
    ensures b < 0 ==> b * q >= a > b * q + b
  {
    if b > 0 then a / b else (-a) / (-b)
  }

  /** The only error `do_eval` raises: a `ZeroDivisionError`. */
  datatype EvalError = DivisionByZero

  /** The triple `(num_examples, true_count, precision)` that `do_eval` returns. */
  datatype EvalReport = EvalReport(numExamples: int, trueCount: int, precision: real)

  /**
   * `do_eval` raises when `batch_size` is zero (the `//`) or when no full
   * batch fits, so that `num_examples` is zero (the precision division).
   */
  predicate EvalFails(n: int, batchSize: int) {
    batchSize == 0 || FloorDiv(n, batchSize) * batchSize == 0
  }

  /** The correct predictions in the first `k` batches (none when `k <= 0`). */
  function CorrectTotal(correct: nat -> nat, k: int): nat
    decreases k
  {
    if k <= 0 then 0 else CorrectTotal(correct, k - 1) + correct(k - 1)
  }

  /**
   * `do_eval` over a data set of `n` examples; `correct(i)` is the number of
   * correct predictions the session reports for batch `i`.
   */
  method DoEval(n: nat, batchSize: int, correct: nat -> nat) returns (r: Result<EvalReport, EvalError>)
    ensures r.Failure? <==> EvalFails(n, batchSize)
    ensures r.Success? ==> batchSize != 0
    ensures r.Success? ==> r.value.numExamples == FloorDiv(n, batchSize) * batchSize
    ensures r.Success? ==> r.value.trueCount == CorrectTotal(correct, FloorDiv(n, batchSize))
    ensures r.Success? ==> r.value.numExamples != 0
                           && r.value.precision * (r.value.numExamples as real) == r.value.trueCount as real
  {
    if batchSize == 0 {
      return Failure(DivisionByZero);
    }
    var stepsPerEpoch := FloorDiv(n, batchSize);
    var numExamples := stepsPerEpoch * batchSize;
    var trueCount := 0;
    var step := 0;
    while step < stepsPerEpoch
      invariant 0 <= step
      invariant stepsPerEpoch >= 0 ==> step <= stepsPerEpoch
      invariant stepsPerEpoch < 0 ==> step == 0
      invariant trueCount == CorrectTotal(correct, step)
    {
      trueCount := trueCount + correct(step);
      step := step + 1;
    }
    assert trueCount == CorrectTotal(correct, stepsPerEpoch);
    if numExamples == 0 {
      return Failure(DivisionByZero);
    }
    var precision := trueCount as real / numExamples as real;
    DivisionInverse(trueCount as real, numExamples as real);
    return Success(EvalReport(numExamples, trueCount, precision));
  }

  lemma DivisionInverse(c: real, m: real)
    requires m != 0.0
    ensures (c / m) * m == c
  {
  }

  /**
   * For a positive batch size the pass covers a multiple of `batch_size`
   * examples, at most `n`, dropping fewer than `batch_size`; it fails exactly
   * when `n < batch_size`.
   */
  lemma BatchArithmetic(n: nat, batchSize: int)
    requires batchSize > 0
    ensures var m := FloorDiv(n, batchSize) * batchSize;
            && 0 <= m <= n
            && m % batchSize == 0
            && n - m < batchSize
    ensures EvalFails(n, batchSize) <==> n < batchSize
  {
    var q := FloorDiv(n, batchSize);
    assert q == n / batchSize;
    assert q >= 0 && (n < batchSize <==> q == 0);
    assert q * batchSize >= 0;
    assert q * batchSize == 0 <==> q == 0;
    ModOfMultiple(q, batchSize);
  }

  /** A multiple of `b` leaves no remainder. */
  lemma ModOfMultiple(q: int, b: int)
    requires b > 0
    ensures (q * b) % b == 0
  {
    var x := q * b;
    assert x == b * (x / b) + x % b;
    MultipleBelow(b, q - x / b);
  }

  /** The only multiple of a positive `b` in `[0, b)` is zero. */
  lemma MultipleBelow(b: int, k: int)
    requires b > 0 && 0 <= b * k < b
    ensures k == 0
  {
    assert b * (k - 1) < 0;
    assert b * (k + 1) >= b;
  }

  /** When no batch holds more correct predictions than examples, neither does the pass. */
  lemma {:induction false} CorrectTotalBounded(correct: nat -> nat, k: int, batchSize: int)
    requires forall i: nat :: i < k ==> correct(i) <= batchSize
    ensures k >= 0 ==> CorrectTotal(correct, k) <= k * batchSize
    decreases k
  {
    if k > 0 {
      CorrectTotalBounded(correct, k - 1, batchSize);
      assert k * batchSize == (k - 1) * batchSize + batchSize;
    }
  }

  /**
   * With per-batch counts bounded by the batch size, the reported precision
   * lies in `[0, 1]`.
   */
  lemma PrecisionIsFraction(n: nat, batchSize: int, correct: nat -> nat)
    requires batchSize > 0 && !EvalFails(n, batchSize)
    requires forall i: nat :: i < FloorDiv(n, batchSize) ==> correct(i) <= batchSize
    ensures var m := FloorDiv(n, batchSize) * batchSize;
            m > 0 && 0.0 <= CorrectTotal(correct, FloorDiv(n, batchSize)) as real / m as real <= 1.0
  {
    var q := FloorDiv(n, batchSize);
    BatchArithmetic(n, batchSize);
    CorrectTotalBounded(correct, q, batchSize);
    FractionAtMostOne(CorrectTotal(correct, q), q * batchSize);
  }

  lemma FractionAtMostOne(c: nat, m: int)
    requires 0 < m && c <= m
    ensures 0.0 <= c as real / m as real <= 1.0
  {
  }
}

=== FILE: inference.dfy ===
/**
 * The layer-width threading of `inference`: the loop over the architecture
 * carries the width of the previous layer's output; a Dense layer resets it
 * to its size, a Dropout layer keeps it, and the final `softmax_linear`
 * layer maps the last width to `output_shape` logits. Tensors, weights and
 * activations are not modelled, only the widths and the errors.
 */
module Inference {
  import opened Outcomes
  import opened PyValue
  import opened Architecture

  /** What building the model can raise. */
  datatype InferenceError =
    | UnpackFailed          // an entry is not a triple: `for type, size, name in architecture`
    | MissingDropoutInput   // a Dropout layer while `keep_prob_pl is None`
    | LayerTensorUnbound    // an unknown kind before any layer tensor was assigned
    | ZeroWidth             // `1.0 / math.sqrt(0.0)` in `get_weights_variable`
    | NegativeWidth         // `math.sqrt` of a negative width
    | NonNumericWidth       // `float(dim_x)` of a value that is not a number

  /** The shape `(inputs, outputs)` of the weight matrix of the final linear layer. */
  datatype LinearShape = LinearShape(inputs: Value, outputs: int)

  predicate IsDenseEntry(e: Entry) {
    |e| == 3 && Equal(e[0], Kind(Dense))
  }

  predicate IsDropoutEntry(e: Entry) {
    |e| == 3 && Equal(e[0], Kind(Dropout))
  }

  /**
   * The error of the weight initialisation `std_dev / math.sqrt(float(dim_x))`
   * for an input width `dim_x`, evaluated in plain Python before any tensor
   * is created: a zero width divides by zero, a negative one has no square
   * root. Non-numeric widths are all counted as errors here.
   */
  function WidthError(width: Value): (r: Option<InferenceError>)
    ensures r.None? <==> UsableWidth(width)
    ensures IsNumber(width) && NumericValue(width) == 0.0 ==> r == Some(ZeroWidth)
    ensures IsNumber(width) && NumericValue(width) < 0.0 ==> r == Some(NegativeWidth)
    ensures !IsNumber(width) ==> r == Some(NonNumericWidth)
  {
    if !IsNumber(width) then Some(NonNumericWidth)
    else if NumericValue(width) == 0.0 then Some(ZeroWidth)
    else if NumericValue(width) < 0.0 then Some(NegativeWidth)
    else None
  }

  /** A width a weight matrix can be initialised for. */
  predicate UsableWidth(width: Value) {
    IsNumber(width) && NumericValue(width) > 0.0
  }

  /**
   * Reference definition, read from the end of the list: the size of the last
   * Dense layer, or `default` when there is none.
   */
  function LastDenseSize(es: seq<Entry>, default: Value): Value
    decreases |es|
  {
    if |es| == 0 then default
    else if IsDenseEntry(es[|es| - 1]) then es[|es| - 1][1]
    else LastDenseSize(es[..|es| - 1], default)
  }

  /** `predecessor_shape` when the loop reaches entry `i`, starting from `start`. */
  function WidthBefore(arch: seq<Entry>, i: int, start: Value): Value
    requires 0 <= i <= |arch|
  {
    LastDenseSize(arch[..i], start)
  }

  /**
   * The error the loop raises when it reaches entry `i`, if any. A Dense layer
   * initialises its weights for the width it reads. An entry of another kind
   * builds no layer and re-uses `layer_tensor`, which is unbound only when it
   * is the very first entry.
   */
  function LayerError(arch: seq<Entry>, i: int, start: Value, hasKeepProb: bool): Option<InferenceError>
    requires 0 <= i < |arch|
  {
    var e := arch[i];
    if |e| != 3 then Some(UnpackFailed)
    else if Equal(e[0], Kind(Dense)) then WidthError(WidthBefore(arch, i, start))
    else if Equal(e[0], Kind(Dropout)) then (if hasKeepProb then None else Some(MissingDropoutInput))
    else if i == 0 then Some(LayerTensorUnbound)
    else None
  }

  /** The width after one entry: a Dense layer's size, otherwise the width before it. */
  function NextWidth(e: Entry, width: Value): Value {
    if IsDenseEntry(e) then e[1] else width
  }

  /** `LastDenseSize` is what its name says: the size of the last Dense entry. */
  lemma {:induction false} LastDenseSizeIsLastDense(es: seq<Entry>, default: Value)
    ensures (forall j :: 0 <= j < |es| ==> !IsDenseEntry(es[j])) ==> LastDenseSize(es, default) == default
    ensures (exists j :: 0 <= j < |es| && IsDenseEntry(es[j])) ==>
              exists j :: 0 <= j < |es| && IsDenseEntry(es[j]) && LastDenseSize(es, default) == es[j][1]
                          && forall k :: j < k < |es| ==> !IsDenseEntry(es[k])
    decreases |es|
  {
    if |es| > 0 {
      var n := |es| - 1;
      var init := es[..n];
      if !IsDenseEntry(es[n]) {
        LastDenseSizeIsLastDense(init, default);
        if exists j :: 0 <= j < |es| && IsDenseEntry(es[j]) {
          var j0 :| 0 <= j0 < |es| && IsDenseEntry(es[j0]);
          assert init[j0] == es[j0];
          var j :| 0 <= j < |init| && IsDenseEntry(init[j]) && LastDenseSize(init, default) == init[j][1]
                   && forall k :: j < k < |init| ==> !IsDenseEntry(init[k]);
          assert forall k :: j < k < |es| ==> !IsDenseEntry(es[k]) by {
            forall k | j < k < |es| ensures !IsDenseEntry(es[k]) {
              if k < n { assert es[k] == init[k]; }
            }
          }
        }
        if forall j :: 0 <= j < |es| ==> !IsDenseEntry(es[j]) {
          assert forall j :: 0 <= j < |init| ==> !IsDenseEntry(init[j]) by {
            forall j | 0 <= j < |init| ensures !IsDenseEntry(init[j]) {
              assert init[j] == es[j];
            }
          }
        }
      }
    }
  }

  /** One more entry: the width it leaves is the next entry's `predecessor_shape`. */
  lemma WidthBeforeStep(arch: seq<Entry>, i: int, start: Value)
    requires 0 <= i < |arch|
    ensures WidthBefore(arch, i + 1, start) == NextWidth(arch[i], WidthBefore(arch, i, start))
  {
    assert arch[..i + 1][..i] == arch[..i];
  }

  /** The width read at entry `k` (or after the loop) is `start` or an earlier Dense size. */
  lemma ReadWidthOrigin(arch: seq<Entry>, k: int, start: Value)
    requires 0 <= k <= |arch|
    ensures WidthBefore(arch, k, start) == start
            || exists j :: 0 <= j < k && IsDenseEntry(arch[j]) && WidthBefore(arch, k, start) == arch[j][1]
  {
    var pre := arch[..k];
    LastDenseSizeIsLastDense(pre, start);
    if exists j :: 0 <= j < |pre| && IsDenseEntry(pre[j]) {
      var j :| 0 <= j < |pre| && IsDenseEntry(pre[j]) && LastDenseSize(pre, start) == pre[j][1]
               && forall m :: j < m < |pre| ==> !IsDenseEntry(pre[m]);
      assert pre[j] == arch[j];
    } else {
      assert WidthBefore(arch, k, start) == start;
    }
  }

  /**
   * If entry `j` is a Dense layer and no Dense layer follows it before entry
   * `k`, then entry `k` (or the final layer, for `k == |arch|`) reads its size.
   */
  lemma {:induction false} ReadsLastDenseSize(arch: seq<Entry>, j: int, k: int, start: Value)
    requires 0 <= j < k <= |arch|
    requires IsDenseEntry(arch[j])
    requires forall m :: j < m < k ==> !IsDenseEntry(arch[m])
    ensures WidthBefore(arch, k, start) == arch[j][1]
    decreases k
  {
    WidthBeforeStep(arch, k - 1, start);
    if k - 1 > j {
      ReadsLastDenseSize(arch, j, k - 1, start);
    }
  }

  /** Without a Dense layer before entry `k`, entry `k` reads `start`. */
  lemma {:induction false} ReadsStart(arch: seq<Entry>, k: int, start: Value)
    requires 0 <= k <= |arch|
    requires forall m :: 0 <= m < k ==> !IsDenseEntry(arch[m])
    ensures WidthBefore(arch, k, start) == start
    decreases k
  {
    if k > 0 {
      WidthBeforeStep(arch, k - 1, start);
      ReadsStart(arch, k - 1, start);
    } else {
      assert arch[..0] == [];
    }
  }

  /** The first Dense entry after position `j`, or `|arch|` when there is none. */
  function NextDenseAfter(arch: seq<Entry>, j: int): (k: int)
    requires -1 <= j < |arch|
    ensures j < k <= |arch|
    ensures k < |arch| ==> IsDenseEntry(arch[k])
    ensures forall m :: j < m < k ==> !IsDenseEntry(arch[m])
    decreases |arch| - j
  {
    if j + 1 == |arch| || IsDenseEntry(arch[j + 1]) then j + 1
    else NextDenseAfter(arch, j + 1)
  }

  /** Every width a weight matrix is created for: `input_shape` and every Dense size. */
  predicate PositiveWidths(arch: seq<Entry>, start: Value) {
    UsableWidth(start) && forall j :: 0 <= j < |arch| && IsDenseEntry(arch[j]) ==> UsableWidth(arch[j][1])
  }

  /** Some Dense layer, or the final layer, reads a width it cannot initialise weights for. */
  predicate ReadsBadWidth(arch: seq<Entry>, start: Value) {
    (exists j :: 0 <= j < |arch| && IsDenseEntry(arch[j]) && !UsableWidth(WidthBefore(arch, j, start)))
    || !UsableWidth(WidthBefore(arch, |arch|, start))
  }

  /**
   * Each width is read: `input_shape` by the first Dense layer (or the final
   * layer), every Dense size by the next Dense layer (or the final layer).
   * So a bad width is read exactly when `input_shape` or some Dense size is
   * not a positive number.
   */
  lemma BadWidthReadIffNonPositive(arch: seq<Entry>, start: Value)
    ensures ReadsBadWidth(arch, start) <==> !PositiveWidths(arch, start)
  {
    if PositiveWidths(arch, start) {
      forall k | 0 <= k <= |arch| ensures UsableWidth(WidthBefore(arch, k, start)) {
        ReadWidthOrigin(arch, k, start);
      }
    } else if !UsableWidth(start) {
      var k := NextDenseAfter(arch, -1);
      ReadsStart(arch, k, start);
    } else {
      var j :| 0 <= j < |arch| && IsDenseEntry(arch[j]) && !UsableWidth(arch[j][1]);
      var k := NextDenseAfter(arch, j);
      ReadsLastDenseSize(arch, j, k, start);
    }
  }

  /**
   * The loop of `inference` from entry `i` on; `width` is `predecessor_shape`,
   * the width left by the entries before `i`.
   */
  function Thread(arch: seq<Entry>, i: int, width: Value, start: Value, hasKeepProb: bool): (r: Result<Value, InferenceError>)
    requires 0 <= i <= |arch|
    requires width == WidthBefore(arch, i, start)
    ensures r.Failure? <==> exists j :: i <= j < |arch| && LayerError(arch, j, start, hasKeepProb).Some?
    ensures r.Failure? ==>
              exists j :: i <= j < |arch| && LayerError(arch, j, start, hasKeepProb) == Some(r.error)
                          && forall k :: i <= k < j ==> LayerError(arch, k, start, hasKeepProb).None?
    ensures r.Success? ==> r.value == LastDenseSize(arch, start)
    decreases |arch| - i
  {
    if i == |arch| then
      assert arch[..i] == arch;
      Success(width)
    else
      var err := LayerError(arch, i, start, hasKeepProb);
      if err.Some? then Failure(err.value)
      else
        WidthBeforeStep(arch, i, start);
        Thread(arch, i + 1, NextWidth(arch[i], width), start, hasKeepProb)
  }

  /**
   * `inference(input_shape, output_shape, architecture, features_pl, keep_prob_pl)`
   * reduced to the shape of the final linear layer; `hasKeepProb` says whether
   * `keep_prob_pl` is not `None`. The final layer initialises its weights for
   * the last width after all entries.
   */
  function Infer(inputShape: int, outputShape: int, arch: seq<Entry>, hasKeepProb: bool): (r: Result<LinearShape, InferenceError>)
    ensures r.Failure? <==>
              (exists j :: 0 <= j < |arch| && LayerError(arch, j, Int(inputShape), hasKeepProb).Some?)
              || !UsableWidth(LastDenseSize(arch, Int(inputShape)))
    ensures r.Failure? ==>
              (exists j :: 0 <= j < |arch| && LayerError(arch, j, Int(inputShape), hasKeepProb) == Some(r.error)
                           && forall k :: 0 <= k < j ==> LayerError(arch, k, Int(inputShape), hasKeepProb).None?)
              || ((forall j :: 0 <= j < |arch| ==> LayerError(arch, j, Int(inputShape), hasKeepProb).None?)
                  && WidthError(LastDenseSize(arch, Int(inputShape))) == Some(r.error))
    ensures r.Success? ==>
              r.value.inputs == LastDenseSize(arch, Int(inputShape)) && UsableWidth(r.value.inputs)
              && r.value.outputs == outputShape
  {
    assert arch[..0] == [];
    match Thread(arch, 0, Int(inputShape), Int(inputShape), hasKeepProb)
    case Failure(err) => Failure(err)
    case Success(width) =>
      match WidthError(width)
      case Some(err) => Failure(err)
      case None => Success(LinearShape(width, outputShape))
  }

  /**
   * On an architecture the validator accepts, building fails exactly when a
   * Dropout layer is present and `keep_prob_pl` is `None`, or `input_shape` or
   * some Dense size is not positive. Only those errors can occur. With
   * positive widths the final layer's input width is the size of the last
   * Dense layer, or `input_shape` when there is no Dense layer.
   */
  lemma InferValidArchitecture(inputShape: int, outputShape: int, arch: seq<Entry>, hasKeepProb: bool)
    requires WellFormed(arch)
    ensures Infer(inputShape, outputShape, arch, hasKeepProb).Failure? <==>
              (!hasKeepProb && exists j :: 0 <= j < |arch| && IsDropoutEntry(arch[j]))
              || !PositiveWidths(arch, Int(inputShape))
    ensures Infer(inputShape, outputShape, arch, hasKeepProb).Failure? ==>
              Infer(inputShape, outputShape, arch, hasKeepProb).error in {MissingDropoutInput, ZeroWidth, NegativeWidth}
    ensures Infer(inputShape, outputShape, arch, hasKeepProb).Failure? && PositiveWidths(arch, Int(inputShape)) ==>
              Infer(inputShape, outputShape, arch, hasKeepProb).error == MissingDropoutInput
    ensures Infer(inputShape, outputShape, arch, hasKeepProb).Failure? && hasKeepProb ==>
              Infer(inputShape, outputShape, arch, hasKeepProb).error != MissingDropoutInput
    ensures (forall j :: 0 <= j < |arch| ==> !IsDenseEntry(arch[j])) && hasKeepProb && inputShape > 0 ==>
              Infer(inputShape, outputShape, arch, hasKeepProb) == Success(LinearShape(Int(inputShape), outputShape))
    ensures Infer(inputShape, outputShape, arch, hasKeepProb).Success? && (exists j :: 0 <= j < |arch| && IsDenseEntry(arch[j])) ==>
              exists j :: 0 <= j < |arch| && IsDenseEntry(arch[j])
                          && Infer(inputShape, outputShape, arch, hasKeepProb).value.inputs == arch[j][1]
                          && forall k :: j < k < |arch| ==> IsDropoutEntry(arch[k])
  {
    var start := Int(inputShape);
    ValidLayerErrors(arch, start, hasKeepProb);
    assert arch[..|arch|] == arch;
    BadWidthReadIffNonPositive(arch, start);
    LastDenseSizeIsLastDense(arch, start);
  }

  /** On a validated architecture every entry is a Dense or a Dropout layer with a numeric size. */
  lemma ValidLayerErrors(arch: seq<Entry>, start: Value, hasKeepProb: bool)
    requires WellFormed(arch) && IsNumber(start)
    ensures forall j :: 0 <= j < |arch| ==> (IsDenseEntry(arch[j]) <==> !IsDropoutEntry(arch[j]))
    ensures forall j :: 0 <= j < |arch| ==>
              (LayerError(arch, j, start, hasKeepProb).Some? <==>
                 (!hasKeepProb && IsDropoutEntry(arch[j]))
                 || (IsDenseEntry(arch[j]) && !UsableWidth(WidthBefore(arch, j, start))))
    ensures forall j :: 0 <= j < |arch| && LayerError(arch, j, start, hasKeepProb).Some? ==>
              LayerError(arch, j, start, hasKeepProb).value in {MissingDropoutInput, ZeroWidth, NegativeWidth}
    ensures forall j :: 0 <= j < |arch| && LayerError(arch, j, start, hasKeepProb) == Some(MissingDropoutInput) ==>
              !hasKeepProb
    ensures forall k :: 0 <= k <= |arch| ==> IsNumber(WidthBefore(arch, k, start))
  {
    forall j | 0 <= j < |arch|
      ensures IsDenseEntry(arch[j]) <==> arch[j][0] == Kind(Dense)
      ensures IsDropoutEntry(arch[j]) <==> arch[j][0] == Kind(Dropout)
      ensures arch[j][0] == Kind(Dense) || arch[j][0] == Kind(Dropout)
      ensures IsNumber(arch[j][1])
    {
      assert LayerOk(arch[j]);
      assert AddOne(arch[j][1]).Some?;
      match arch[j][0].kind {
        case Dense => assert Equal(arch[j][0], Kind(Dense));
        case Dropout => assert Equal(arch[j][0], Kind(Dropout));
      }
    }
    forall k | 0 <= k <= |arch| ensures IsNumber(WidthBefore(arch, k, start)) {
      ReadWidthOrigin(arch, k, start);
    }
  }

  /**
   * Appending a Dropout layer changes nothing: a buildable model keeps its
   * final width and a failing one raises the same error.
   */
  lemma DropoutKeepsWidth(inputShape: int, outputShape: int, arch: seq<Entry>, e: Entry)
    requires IsDropoutEntry(e)
    ensures Infer(inputShape, outputShape, arch + [e], true) == Infer(inputShape, outputShape, arch, true)
  {
    var whole := arch + [e];
    var start := Int(inputShape);
    assert whole[..|arch|] == arch;
    forall j | 0 <= j < |arch| ensures LayerError(whole, j, start, true) == LayerError(arch, j, start, true) {
      assert whole[j] == arch[j];
      assert whole[..j] == arch[..j];
    }
    assert LayerError(whole, |arch|, start, true).None?;
    assert LastDenseSize(whole, start) == LastDenseSize(arch, start);
  }

  /**
   * A Dense layer appended to a buildable model sets the final width to its
   * size when that size is positive; otherwise the final layer raises the
   * width's error.
   */
  lemma DenseSetsWidth(inputShape: int, outputShape: int, arch: seq<Entry>, e: Entry)
    requires IsDenseEntry(e)
    requires Infer(inputShape, outputShape, arch, true).Success?
    ensures UsableWidth(e[1]) ==>
              Infer(inputShape, outputShape, arch + [e], true) == Success(LinearShape(e[1], outputShape))
    ensures !UsableWidth(e[1]) ==>
              Infer(inputShape, outputShape, arch + [e], true) == Failure(WidthError(e[1]).value)
  {
    var whole := arch + [e];
    var start := Int(inputShape);
    assert whole[..|arch|] == arch;
    forall j | 0 <= j < |arch| ensures LayerError(whole, j, start, true) == LayerError(arch, j, start, true) {
      assert whole[j] == arch[j];
      assert whole[..j] == arch[..j];
    }
    assert LayerError(whole, |arch|, start, true).None?;
  }
}

=== FILE: outcomes.dfy ===
/** Failure-carrying results shared by the modules of this model. */
module Outcomes {

  /** A value that may be absent (Python's `None`). */
  datatype Option<+T> = None | Some(value: T)

  /** The result of an operation that either returns a value or raises an error. */
  datatype Result<+T, +E> = Success(value: T) | Failure(error: E)
}

=== FILE: py_value.dfy ===
/**
 * The Python values that can appear inside an architecture entry
 * `(TF_LAYER.<kind>, size, name)`, with just enough of Python's semantics
 * for the validator and the model builder: `==` and the `size += 1` probe.
 */
module PyValue {
  import opened Outcomes

  /** The members of the `TF_LAYER` enumeration. */
  datatype LayerKind = Dense | Dropout

  /** A dynamically typed Python value. Floats are modelled as reals (no NaN). */
  datatype Value =
    | Kind(kind: LayerKind)
    | Int(i: int)
    | Bool(b: bool)
    | Float(f: real)
    | Str(s: string)
    | NoneValue

  /** `int`, `bool` and `float` are Python's numeric types. */
  predicate IsNumber(v: Value) {
    v.Int? || v.Bool? || v.Float?
  }

  /** The mathematical value of a number (`True` is 1, `False` is 0). */
  function NumericValue(v: Value): real
    requires IsNumber(v)
  {
    match v
    case Int(i) => i as real
    case Bool(b) => if b then 1.0 else 0.0
    case Float(f) => f
  }

  /**
   * Python's `==`: numbers of different types compare by value (`1 == 1.0 == True`),
   * enumeration members, strings and `None` compare structurally.
   */
  predicate Equal(a: Value, b: Value) {
    if IsNumber(a) && IsNumber(b) then NumericValue(a) == NumericValue(b) else a == b
  }

  /**
   * Python's `v + 1`: defined for numbers, a `TypeError` (here `None`) for
   * strings, enumeration members and `None`.
   */
  function AddOne(v: Value): (r: Option<Value>)
    ensures r.Some? <==> IsNumber(v)
    ensures r.Some? ==> IsNumber(r.value) && NumericValue(r.value) == NumericValue(v) + 1.0
  {
    match v
    case Int(i) => Some(Int(i + 1))
    case Bool(b) => Some(Int(if b then 2 else 1))
    case Float(f) => Some(Float(f + 1.0))
    case _ => None
  }

  /** Python's `v in xs` for a list `xs`. */
  predicate Contains(xs: seq<Value>, v: Value) {
    exists k :: 0 <= k < |xs| && Equal(xs[k], v)
  }
}

=== FILE: training.dfy ===
/**
 * The control skeleton of `TensorFlowNet`: construction (validation and the
 * initial best values) and `run_training` — the step loop, the evaluation
 * every 200 steps, the checkpoint request when the test loss improved, the
 * best-value update and the early-stopping break. The session, the data sets
 * and the optimiser are replaced by the per-step results they deliver.
 */
module Training {
  import opened Outcomes
  import opened PyValue
  import opened Architecture
  import opened Inference
  import opened BestValues
  import opened Evaluation

  /** Evaluation, summaries, checkpointing and the best-value update run every this many steps. */
  const EvalInterval: nat := 200

  /** The loss a step keeps when its session call raises: the value it starts with. */
  const FailedLoss: real := -1.0

  /**
   * What the two session calls of one step deliver. A raised exception is
   * caught and logged, and the losses not yet assigned keep `FailedLoss`.
   */
  datatype StepResult =
    | Completed(trainLoss: real, testLoss: real)
    | TestRunFailed(trainLoss: real)
    | TrainRunFailed

  function TrainLossOf(r: StepResult): real {
    if r.TrainRunFailed? then FailedLoss else r.trainLoss
  }

  function TestLossOf(r: StepResult): real {
    if r.Completed? then r.testLoss else FailedLoss
  }

  /**
   * The construction parameters the loop depends on; `inputShape` is the
   * feature-vector length and the example counts are those of the data sets.
   */
  datatype Config = Config(
    inputShape: int,
    numClasses: int,
    batchSize: int,
    maxSteps: int,
    patience: int,
    epochsPerDecay: real,
    trainExamples: nat,
    testExamples: nat)

  /** A constructed `TensorFlowNet`: its configuration, architecture and best values. */
  datatype Net = Net(config: Config, architecture: seq<Entry>, tracker: Tracker)

  /**
   * The constructor: the architecture is validated first and any error
   * propagates; a constructed net starts from the initial best values. Since
   * `run_training` passes a keep-probability placeholder, its model builds
   * exactly when `input_shape` and every Dense size are positive; the
   * validator does not check that.
   */
  function Construct(config: Config, arch: Option<seq<Entry>>): (r: Result<Net, ArchError>)
    ensures r.Success? <==> arch.Some? && WellFormed(arch.value)
    ensures arch.None? ==> r == Failure(ArchitectureIsNone)
    ensures arch.Some? && |arch.value| == 0 ==> r == Failure(NoLayer)
    ensures r.Failure? ==> Validate(arch) == Rejected(r.error)
    ensures r.Success? ==> r.value.config == config && r.value.tracker == Initial && r.value.architecture == arch.value
    ensures r.Success? ==>
              (Infer(config.inputShape, config.numClasses, r.value.architecture, true).Success?
               <==> PositiveWidths(r.value.architecture, Int(config.inputShape)))
    ensures r.Success? && Infer(config.inputShape, config.numClasses, r.value.architecture, true).Failure? ==>
              Infer(config.inputShape, config.numClasses, r.value.architecture, true).error in {ZeroWidth, NegativeWidth}
  {
    match Validate(arch)
    case Rejected(err) => Failure(err)
    case Accepted =>
      InferValidArchitecture(config.inputShape, config.numClasses, arch.value, true);
      Success(Net(config, arch.value, Initial))
  }

  /**
   * What the collaborators deliver at each step: the session's losses, and the
   * precisions `do_eval` reports on the train and test sets.
   */
  datatype Observations = Observations(
    session: nat -> StepResult,
    trainPrecision: nat -> real,
    testPrecision: nat -> real)

  function TestLossAt(obs: Observations, s: nat): real {
    TestLossOf(obs.session(s))
  }

  function MetricsAt(obs: Observations, s: nat): Metrics {
    Metrics(s, TrainLossOf(obs.session(s)), obs.trainPrecision(s), TestLossAt(obs, s), obs.testPrecision(s))
  }

  predicate IsEvalStep(s: nat) {
    s % EvalInterval == 0
  }

  /** The best values at the start of step `s`, when the loop began with `start`. */
  function StateBefore(start: Tracker, obs: Observations, s: nat): Tracker
    decreases s
  {
    if s == 0 then start
    else
      var t := StateBefore(start, obs, s - 1);
      if IsEvalStep(s - 1) then Update(t, MetricsAt(obs, s - 1)) else t
  }

  /** Step `s` requests a checkpoint: an evaluation step whose test loss improves. */
  predicate CheckpointAt(start: Tracker, obs: Observations, s: nat) {
    IsEvalStep(s) && ModelImproved(StateBefore(start, obs, s), TestLossAt(obs, s))
  }

  /** The early-stopping decision of step `s`, taken on the best values before its update. */
  predicate StopsAt(config: Config, start: Tracker, obs: Observations, s: nat) {
    EarlyStopping(StateBefore(start, obs, s), s, TestLossAt(obs, s), config.patience)
  }

  /** `do_eval` raises on one of the two data sets. */
  predicate EvaluationBroken(config: Config) {
    EvalFails(config.trainExamples, config.batchSize) || EvalFails(config.testExamples, config.batchSize)
  }

  /** The iterations of `range(max_steps)`. */
  function StepBound(config: Config): nat {
    if config.maxSteps > 0 then config.maxSteps else 0
  }

  /** Python's `int(x)` on a float: truncation towards zero. */
  function Truncate(x: real): (n: int)
    ensures x >= 0.0 ==> n as real <= x < n as real + 1.0
    ensures x < 0.0 ==> n as real - 1.0 < x <= n as real
  {
    if x >= 0.0 then x.Floor else -((-x).Floor)
  }

  /**
   * `decay_steps` of `get_train_op`: the true division of the training-set size
   * by `batch_size` raises `ZeroDivisionError` for a zero batch size; otherwise
   * the batches per epoch times `num_epochs_per_decay`, truncated.
   */
  function DecaySteps(config: Config): (r: Option<int>)
    ensures r.None? <==> config.batchSize == 0
    ensures r.Some? ==>
              var perDecay := config.trainExamples as real / config.batchSize as real * config.epochsPerDecay;
              (perDecay >= 0.0 ==> r.value >= 0 && r.value as real <= perDecay < r.value as real + 1.0)
              && (perDecay < 0.0 ==> r.value <= 0 && r.value as real - 1.0 < perDecay <= r.value as real)
  {
    if config.batchSize == 0 then None
    else Some(Truncate(config.trainExamples as real / config.batchSize as real * config.epochsPerDecay))
  }

  /** The uncaught errors of `run_training`, in the order they can occur. */
  datatype RunError =
    | ModelBuildFailed(buildError: InferenceError)
    | TrainOpFailed         // `ZeroDivisionError` in the learning-rate schedule of `get_train_op`
    | EvaluationFailed(evalError: EvalError)

  /**
   * The outcome of a completed run: the steps executed, whether the loop ended
   * by early stopping, the steps at which a checkpoint was requested, and the
   * best values at the end.
   */
  datatype Run = Run(stepsRun: nat, earlyStopped: bool, checkpoints: seq<nat>, best: Tracker)

  /** `run_training` on a constructed net. */
  method RunTraining(net: Net, obs: Observations) returns (r: Result<Run, RunError>)
    ensures r.Failure? <==>
              || Infer(net.config.inputShape, net.config.numClasses, net.architecture, true).Failure?
              || net.config.batchSize == 0
              || (net.config.maxSteps > 0 && EvaluationBroken(net.config))
    ensures Infer(net.config.inputShape, net.config.numClasses, net.architecture, true).Failure? ==>
              r == Failure(ModelBuildFailed(Infer(net.config.inputShape, net.config.numClasses, net.architecture, true).error))
    ensures Infer(net.config.inputShape, net.config.numClasses, net.architecture, true).Success? && net.config.batchSize == 0 ==>
              r == Failure(TrainOpFailed)
    ensures (Infer(net.config.inputShape, net.config.numClasses, net.architecture, true).Success?
             && net.config.batchSize != 0 && r.Failure?) ==>
              r == Failure(EvaluationFailed(DivisionByZero))
    ensures r.Success? ==> r.value.stepsRun <= StepBound(net.config)
    ensures r.Success? ==> (r.value.earlyStopped <==> r.value.stepsRun > 0 && StopsAt(net.config, net.tracker, obs, r.value.stepsRun - 1))
    ensures r.Success? ==> (!r.value.earlyStopped ==> r.value.stepsRun == StepBound(net.config))
    ensures r.Success? ==> forall s: nat :: s + 1 < r.value.stepsRun ==> !StopsAt(net.config, net.tracker, obs, s)
    ensures r.Success? ==> r.value.best == StateBefore(net.tracker, obs, r.value.stepsRun)
    ensures r.Success? ==> forall s: nat :: s in r.value.checkpoints <==> s < r.value.stepsRun && CheckpointAt(net.tracker, obs, s)
    ensures r.Success? ==> forall i, j :: 0 <= i < j < |r.value.checkpoints| ==> r.value.checkpoints[i] < r.value.checkpoints[j]
  {
    var config := net.config;
    var logits := Infer(config.inputShape, config.numClasses, net.architecture, true);
    if logits.Failure? {
      return Failure(ModelBuildFailed(logits.error));
    }
    if DecaySteps(config).None? {
      return Failure(TrainOpFailed);
    }
    var t := net.tracker;
    var checkpoints: seq<nat> := [];
    var stopped := false;
    var step: nat := 0;
    while step < config.maxSteps && !stopped
      invariant step <= StepBound(config)
      invariant step > 0 ==> !EvaluationBroken(config)
      invariant t == StateBefore(net.tracker, obs, step)
      invariant forall s: nat :: s in checkpoints <==> s < step && CheckpointAt(net.tracker, obs, s)
      invariant forall i :: 0 <= i < |checkpoints| ==> checkpoints[i] < step
      invariant forall i, j :: 0 <= i < j < |checkpoints| ==> checkpoints[i] < checkpoints[j]
      invariant stopped ==> step > 0 && StopsAt(config, net.tracker, obs, step - 1)
      invariant forall s: nat :: s + 1 < step ==> !StopsAt(config, net.tracker, obs, s)
      invariant !stopped ==> forall s: nat :: s < step ==> !StopsAt(config, net.tracker, obs, s)
      decreases StepBound(config) - step, !stopped
    {
      var losses := obs.session(step);
      var trainLoss := TrainLossOf(losses);
      var testLoss := TestLossOf(losses);
      var earlyStopping := EarlyStopping(t, step, testLoss, config.patience);
      if step % EvalInterval == 0 {
        if EvaluationBroken(config) {
          return Failure(EvaluationFailed(DivisionByZero));
        }
        if ModelImproved(t, testLoss) {
          checkpoints := checkpoints + [step];
        }
        t := Update(t, Metrics(step, trainLoss, obs.trainPrecision(step), testLoss, obs.testPrecision(step)));
      }
      step := step + 1;
      if earlyStopping {
        stopped := true;
      }
    }
    return Success(Run(step, stopped, checkpoints, t));
  }

  /** Best losses never increase and best precisions never decrease from one step to a later one. */
  lemma {:induction false} BestValuesMonotone(start: Tracker, obs: Observations, s: nat, s': nat)
    requires s <= s'
    ensures AtMost(StateBefore(start, obs, s').bestTestLoss, StateBefore(start, obs, s).bestTestLoss)
    ensures AtMost(StateBefore(start, obs, s').bestTrainLoss, StateBefore(start, obs, s).bestTrainLoss)
    ensures StateBefore(start, obs, s').bestTestPrecision >= StateBefore(start, obs, s).bestTestPrecision
    ensures StateBefore(start, obs, s').bestTrainPrecision >= StateBefore(start, obs, s).bestTrainPrecision
    decreases s' - s
  {
    if s < s' {
      BestValuesMonotone(start, obs, s, s' - 1);
    }
  }

  /**
   * From a freshly constructed net, after at least one step: the last
   * improvement is the latest checkpoint step, the best test loss is the test
   * loss of that step, and it is the smallest test loss of all evaluation
   * steps so far.
   */
  lemma {:induction false} LatestImprovement(obs: Observations, s: nat)
    requires s > 0
    ensures var t := StateBefore(Initial, obs, s);
            && 0 <= t.lastImprovement < s
            && CheckpointAt(Initial, obs, t.lastImprovement)
            && t.bestTestLoss == Finite(TestLossAt(obs, t.lastImprovement))
            && (forall k: nat :: t.lastImprovement < k < s ==> !CheckpointAt(Initial, obs, k))
            && (forall k: nat :: k < s && IsEvalStep(k) ==> TestLossAt(obs, t.lastImprovement) <= TestLossAt(obs, k))
    decreases s
  {
    if s > 1 {
      LatestImprovement(obs, s - 1);
    }
  }

  /**
   * Early stopping at step `s` of a fresh run means that no checkpoint was
   * requested in the last `patience` steps and that an earlier evaluation had a
   * test loss at least as good as step `s`'s.
   */
  lemma EarlyStopWindow(config: Config, obs: Observations, s: nat)
    requires StopsAt(config, Initial, obs, s)
    ensures s > config.patience
    ensures forall k: nat :: s - config.patience <= k < s ==> !CheckpointAt(Initial, obs, k)
    ensures exists k: nat :: k < s && IsEvalStep(k) && TestLossAt(obs, k) <= TestLossAt(obs, s)
  {
    if s > 0 {
      LatestImprovement(obs, s);
      var L := StateBefore(Initial, obs, s).lastImprovement;
      assert IsEvalStep(L) && TestLossAt(obs, L) <= TestLossAt(obs, s);
    }
  }

  /**
   * A step whose session call raised reports the test loss `-1`; at an
   * evaluation step it counts as an improvement over any best above `-1`, so
   * it requests a checkpoint and becomes the best test loss, and afterwards
   * no step with a test loss of at least `-1` can request a checkpoint.
   */
  lemma FailedStepRegistersImprovement(start: Tracker, obs: Observations, s: nat)
    requires IsEvalStep(s) && !obs.session(s).Completed?
    requires Below(FailedLoss, StateBefore(start, obs, s).bestTestLoss)
    ensures CheckpointAt(start, obs, s)
    ensures StateBefore(start, obs, s + 1).bestTestLoss == Finite(FailedLoss)
    ensures StateBefore(start, obs, s + 1).lastImprovement == s
    ensures forall k: nat :: k > s && TestLossAt(obs, k) >= FailedLoss ==> !CheckpointAt(start, obs, k)
  {
    forall k: nat | k > s && TestLossAt(obs, k) >= FailedLoss
      ensures !CheckpointAt(start, obs, k)
    {
      BestValuesMonotone(start, obs, s + 1, k);
    }
  }

  /** Between two evaluation steps the best values do not change. */
  lemma {:induction false} NoChangeBetweenEvaluations(start: Tracker, obs: Observations, s: nat, s': nat)
    requires s <= s'
    requires forall k: nat :: s <= k < s' ==> !IsEvalStep(k)
    ensures StateBefore(start, obs, s') == StateBefore(start, obs, s)
    decreases s' - s
  {
    if s < s' {
      NoChangeBetweenEvaluations(start, obs, s, s' - 1);
    }
  }

  /** The constructor's default architecture: two Dense layers and a Dropout layer. */
  const DefaultArchitecture: seq<Entry> := [
    [Kind(Dense), Int(1024), Str("hidden1")],
    [Kind(Dense), Int(64), Str("hidden2")],
    [Kind(Dropout), Float(0.6), Str("dropout1")]
  ]

  /**
   * The default architecture is accepted. For a positive `input_shape` the
   * final linear layer of its model reads the 64 outputs of the last Dense
   * layer; otherwise the first Dense layer raises while initialising its
   * weights.
   */
  lemma DefaultArchitectureBuilds(config: Config)
    ensures Construct(config, Some(DefaultArchitecture)) == Success(Net(config, DefaultArchitecture, Initial))
    ensures config.inputShape > 0 ==>
              Infer(config.inputShape, config.numClasses, DefaultArchitecture, true)
              == Success(LinearShape(Int(64), config.numClasses))
    ensures config.inputShape == 0 ==>
              Infer(config.inputShape, config.numClasses, DefaultArchitecture, true) == Failure(ZeroWidth)
    ensures config.inputShape < 0 ==>
              Infer(config.inputShape, config.numClasses, DefaultArchitecture, true) == Failure(NegativeWidth)
  {
    DefaultArchitectureWellFormed();
    DefaultWidths(Int(config.inputShape));
  }

  /** The validator accepts the default architecture. */
  lemma DefaultArchitectureWellFormed()
    ensures Validate(Some(DefaultArchitecture)) == Accepted
  {
    var arch := DefaultArchitecture;
    forall j | 0 <= j < |arch| ensures LayerOk(arch[j]) {
      assert AddOne(arch[j][1]).Some?;
    }
    assert WellFormed(arch);
  }

  /** The widths read by the layers of the default architecture. */
  lemma DefaultWidths(start: Value)
    ensures LayerError(DefaultArchitecture, 0, start, true) == WidthError(start)
    ensures LayerError(DefaultArchitecture, 1, start, true).None?
    ensures LayerError(DefaultArchitecture, 2, start, true).None?
    ensures LastDenseSize(DefaultArchitecture, start) == Int(64)
  {
    var arch := DefaultArchitecture;
    assert arch[..0] == [];
    assert arch[..1] == [arch[0]] && arch[..1][..0] == [];
    assert WidthBefore(arch, 1, start) == Int(1024);
    assert arch[..2][..1] == arch[..1];
    assert WidthBefore(arch, 2, start) == Int(64);
    assert arch[..3] == arch;
  }

  /**
   * Two layers with the same name are rejected at construction, also when the
   * names are different Python values that compare equal (`1` and `True`).
   */
  lemma DuplicateNamesRejected(config: Config)
    ensures Construct(config, Some([[Kind(Dense), Int(4), Str("h1")], [Kind(Dense), Int(4), Str("h1")]]))
            == Failure(DuplicateName)
    ensures Construct(config, Some([[Kind(Dense), Int(4), Int(1)], [Kind(Dropout), Float(0.5), Bool(true)]]))
            == Failure(DuplicateName)
  {
    SecondNameRepeats([Kind(Dense), Int(4), Str("h1")], [Kind(Dense), Int(4), Str("h1")]);
    SecondNameRepeats([Kind(Dense), Int(4), Int(1)], [Kind(Dropout), Float(0.5), Bool(true)]);
  }

  /** Two valid entries whose names compare equal: the second one is the offence. */
  lemma SecondNameRepeats(e0: Entry, e1: Entry)
    requires EntryError(e0, []).None?
    requires |e1| == 3 && EntryError(e1, []).None? && Equal(e1[2], e0[2])
    ensures Validate(Some([e0, e1])) == Rejected(DuplicateName)
  {
    var arch := [e0, e1];
    assert arch[..0] == [];
    assert arch[..1] == [e0];
    assert Names([e0]) == [NameOf(e0)];
    assert Contains([NameOf(e0)], e1[2]) by {
      assert Equal([NameOf(e0)][0], e1[2]);
    }
    assert CheckFrom(arch, 1, [NameOf(e0)]) == Rejected(DuplicateName);
  }
}
